=== FILE: README.md ===
# CAN Pong — a Dafny model of the two-node game core

Two Teensy boards, each with a 128 x 64 OLED and a joystick, play Pong over
a CAN bus. Each board draws its own paddle on the right and the other
player's paddle on the left. A click on a board's joystick makes that board
*master* for the rest of its session. A master runs the integer ball
physics and broadcasts the ball, and the score when it changes. Both boards
broadcast their own paddle. The master lock is local to each board:
received frames never close it. So the other board can still become master
with its own click, and then both simulate and broadcast a ball
(`GameLoop.LateClickStillElects`). Frames are tiny: a paddle is one byte, the ball two and
the score two. The receiver mirrors the ball's X coordinate into its own
view. It copies paddle rows and scores unchanged.

The model covers the game core of `src/main.cpp`. The state is one
immutable record (`Game.State`), and each block of `loop()` is a pure
function on it:

| module | file | what it holds |
|---|---|---|
| `Bounded` | `bounded.dfy` | `uint8_t`/`uint32_t` as subset types, `clamp`, the `uint8_t` increment |
| `Geometry` | `geometry.dfy` | playfield, paddle and ball constants, and the bounds derived from them |
| `Bus` | `bus.dfy` | CAN identifiers and frames (`id`, `len`, eight data bytes) |
| `Codec` | `codec.dfy` | paddle centre byte, ball and score frames, X mirroring |
| `Game` | `game.dfy` | the state record, the session invariant `Valid`, the initial state |
| `Timing` | `timing.dfy` | `millis() - last >= interval` in 32-bit arithmetic |
| `Ingest` | `ingest.dfy` | `onCanReceive` and the receive-queue drain |
| `Election` | `election.dfy` | the one-shot master lock and the first serve |
| `PaddleControl` | `paddle.dfy` | joystick motion step and paddle broadcast |
| `Physics` | `physics.dfy` | integrate, wall and paddle bounces, scoring and re-serve, X clamp |
| `GameLoop` | `game_loop.dfy` | one pass of `loop()`, whole sessions, election and follower properties |
| `Sync` | `sync.dfy` | what the peer holds after applying one board's broadcasts |

Inputs and outputs are explicit:
- The millisecond clock is a `u32` parameter.
- Joystick pins are booleans, with true meaning pressed.
- The frames received since the last pass form a sequence.
- `can0.write` appends to the sequence of frames a pass returns.
- The renderer gets a "render due" flag.

Because every step is a function, a tick is deterministic by construction.

Three facts about the wire protocol:
- A paddle row is not mirrored on receipt. Both boards share the vertical axis, so a paddle at top row 30 arrives as top row 30.
- The ball frame carries only X and Y.
- The score bytes are copied without a left/right swap. So after a score frame, the follower's left counter holds the master's left counter (`Sync.BallSync`).

## Model

| member | source | states |
|---|---|---|
| `Bounded.Clamp` | src/main.cpp:114-119 | on a proper range the result lies in `[lo, hi]`, is the nearest point of the range to the value, and is the value itself inside the range; the lower bound wins on an empty range |
| `Bounded.IncByte` | src/main.cpp:369-379 | a score increment is `(b + 1) mod 256`, always changes the counter, and is `b + 1` below 255 |
| `Codec.PaddleTopToCenter` | src/main.cpp:122-125 | the paddle wire byte is at most 63; it is the paddle's centre row when that row fits, and saturates at 0 or 63 otherwise |
| `Codec.PaddleCenterToTop` | src/main.cpp:128-131 | every byte decodes to a top row in `[4, 39]`: bytes up to 14 give row 4 and bytes from 49 up give row 39; for centre bytes in `[14, 49]`, re-encoding the decoded row gives the byte back |
| `Codec.PaddleRoundTrip` | src/main.cpp:121-131 | for every legal top row in `[4, 39]`, decoding its encoding returns the same row |
| `Codec.MirrorInvolutive` | src/main.cpp:204-208 | mirroring X twice is the identity; mirroring maps `[0, 127]` and the ball's X range `[6, 121]` onto themselves |
| `Codec.EncodePaddle` | src/main.cpp:319-323 | the paddle frame has id 25 and length 1; its byte is at most 63; for a legal row it is the centre row `top + 10`, which decodes back to the same row |
| `Codec.EncodeBall` | src/main.cpp:410-416 | the ball frame has id 55 and length 2; X is clamped to `[0, 127]` and Y to `[0, 63]`: exact inside those ranges, saturating at 0 below and at 127 or 63 above, never wrapping |
| `Codec.EncodeScore` | src/main.cpp:385-390 | the score frame has id 60 and length 2 and carries the left score, then the right score |
| `Game.Init` | src/main.cpp:92-107 | the initial state satisfies the session invariant; the board is not master, the lock is open, the ball is hidden, both scores are 0, both paddles start at the centred row 21, and all four activity timers start at 0 |
| `Timing.Elapsed` | src/main.cpp:295 | the 32-bit `now - last` is a distance that, added to `last` modulo 2^32, reaches `now` |
| `Timing.ElapsedUnique` | src/main.cpp:315 | no other 32-bit distance leads from `last` to `now` |
| `Timing.DueIffElapsed` | src/main.cpp:329-332 | if fewer than 2^32 ms of real time separate two readings, an activity is due exactly when that real time reaches its interval, across counter wrap-around |
| `Ingest.OnCanReceive` | src/main.cpp:193-219 | a frame with an unknown id, or a known id and too short a length (below 1 for paddle, below 2 for ball and score), changes nothing; a paddle frame changes only the opponent paddle, to a legal row; a ball frame changes only the ball, with `127 - X` and Y taken from bytes 0 and 1, and shows it; a score frame overwrites both counters verbatim; the own paddle, the election flags, the timers and the velocity never change; the session invariant survives every frame |
| `Ingest.BallFrameRoundTrip` | src/main.cpp:205-210 | a ball frame encoded from on-screen coordinates decodes to X mirrored within `[0, 127]` and the same Y, so mirroring back recovers the sender's X; only the ball changes, and it is shown |
| `Ingest.ScoreFrameRoundTrip` | src/main.cpp:214-218 | a score frame decodes to the same two counters in the same order, and nothing else changes |
| `Ingest.ApplyAll` | src/main.cpp:265-266 | applying a burst of frames in order keeps the own paddle, the election flags, the timers, the velocity and the session invariant |
| `Ingest.OpponentPaddleLastWins` | src/main.cpp:196-199 | after a burst of frames, the opponent paddle is the decoding of the newest valid paddle frame, or unchanged if the burst held none |
| `Ingest.ScoreLastWins` | src/main.cpp:214-218 | after a burst of frames, both counters are the bytes of the newest valid score frame, or unchanged if the burst held none |
| `Ingest.Drain` | src/main.cpp:265-266 | draining the receive queue oldest-first gives the same state as `ApplyAll`, keeps the own paddle and role, and keeps the session invariant |
| `Election.Elect` | src/main.cpp:271-286 | on the first click while unlocked, the board becomes master, the lock closes, and the ball is served at `(115, own top + 10)` with velocity `(-1, 1)` and shown; nothing else changes; with the lock closed or no click, nothing changes at all |
| `Election.ElectIdempotent` | src/main.cpp:271-276 | two election passes act like one pass with either click: once locked, the role and the ball are left alone |
| `PaddleControl.MoveStep` | src/main.cpp:299-308 | the result is always in `[4, 39]`; from a legal row the paddle moves one row up exactly when only up is held and it is not at the top, one row down exactly when only down is held and it is not at the bottom, and otherwise stays |
| `PaddleControl.PaddleMove` | src/main.cpp:291-309 | when not due, nothing changes; when due, the timer becomes `now` and the paddle takes the joystick move of `MoveStep` (up, down or stay, clamped to `[4, 39]`); only the own paddle and its timer can change, by at most one row |
| `PaddleControl.PaddleSend` | src/main.cpp:314-324 | when due, the timer becomes `now` and exactly one frame is sent, the paddle frame `EncodePaddle` of the own row, from which the peer decodes that row; otherwise nothing is sent or changed |
| `Physics.BounceWalls` | src/main.cpp:338-348 | after the wall checks Y lies in `[6, 57]`; a ball strictly inside is untouched; a ball on or past the top wall is placed at Y = 6, and one on or past the bottom wall at Y = 57, each with VY reversed; X and VX are kept |
| `Physics.Collide` | src/main.cpp:350-366 | the two sequential paddle checks equal an exclusive choice, so at most one paddle collision fires per tick: an opponent hit puts X at 10, an own hit puts X at 117, and each reverses VX |
| `Physics.Tick` | src/main.cpp:334-408 | after a tick X lies in `[6, 121]`; with no score the counters are unchanged and Y is in `[6, 57]`; on a score exactly one counter advances by one modulo 256, and the ball is re-served at `(115, own top + 10)` with VX = -1 and shown; with no score the ball is the moved, wall-bounced and paddle-bounced ball with X clamped to `[6, 121]`, keeping the bounced Y and both velocities; unit speeds stay unit |
| `Physics.FreeFlight` | src/main.cpp:334-336 | a ball clear of both walls and both paddle faces just moves by its velocity, and nobody scores |
| `Physics.OpponentPaddleReturns` | src/main.cpp:350-357 | a moved ball at X of at most 10, on a row the opponent paddle covers, is put back at X = 10 with VX reversed, and nobody scores |
| `Physics.OwnPaddleReturns` | src/main.cpp:359-366 | a moved ball at X of at least 117, on a row the own paddle covers, is put back at X = 117 with VX reversed, and nobody scores |
| `Physics.TickKeepsBallInField` | src/main.cpp:338-408 | with a legal own paddle, the ball ends every tick inside `[6, 121] x [6, 57]` |
| `Physics.RightScoresIffOpponentMisses` | src/main.cpp:350-374 | the right counter advances exactly when the moved ball is left of X = 6 at a row the opponent paddle does not cover |
| `Physics.LeftScoresIffOwnMisses` | src/main.cpp:359-379 | the left counter advances exactly when the moved ball is right of X = 121 at a row the own paddle does not cover |
| `Physics.ServeKeepsVerticalDirection` | src/main.cpp:397-402 | a re-serve moves down exactly when the ball was moving down, or not at all vertically, after the wall bounce |
| `Physics.PhysicsStep` | src/main.cpp:329-417 | a board that is not master, or whose tick is not due, changes nothing and sends nothing; a due master replaces the ball and the scores with the result of `Tick` on its own paddles, and sets the tick timer to `now`; nothing else changes; it sends a score frame exactly when a counter changed, then a ball frame whose bytes are the new position exactly; the session invariant survives |
| `GameLoop.DrawStep` | src/main.cpp:422-427 | render is due exactly when the draw interval elapsed; then only the draw timer changes, to `now` |
| `GameLoop.LoopStep` | src/main.cpp:263-428 | one pass keeps the session invariant and moves the own paddle by at most one row; the lock is closed afterwards iff it was closed before or the button is pressed; a board that is not master afterwards sent no ball or score frame and kept its velocity; at most three frames leave per pass; render is due exactly when the draw interval elapsed |
| `GameLoop.LoopStepFrames` | src/main.cpp:314-416 | a due paddle broadcast is the first frame of a pass and carries the row after this pass's move; a due master's ball frame is the last frame and carries the ball the pass leaves; with neither gate open nothing is sent |
| `GameLoop.LateClickStillElects` | src/main.cpp:271-282 | whatever frames arrived in the same pass, a board with an open lock becomes master on its own click; when no physics tick is due in that pass, the pass leaves the serve from its own paddle, because received frames are applied before the election; so two masters can coexist |
| `GameLoop.Run` | src/main.cpp:263-428 | a session of passes keeps the session invariant; the lock ends closed iff it started closed or some pass saw a click |
| `GameLoop.RoleChangesOnce` | src/main.cpp:271-276 | over any session the board becomes master exactly once if it started unlocked and the button was pressed at some pass, and never otherwise |
| `GameLoop.FollowerNeverSimulates` | src/main.cpp:329-330 | a board whose button is never pressed stays non-master, sends only paddle frames, and keeps its ball velocity for the whole session |
| `Sync.PaddleSync` | src/main.cpp:196-198 | a paddle broadcast sets the peer's opponent paddle to exactly the sender's own paddle row, with no mirroring |
| `Sync.BallSync` | src/main.cpp:205-217 | after a master tick, the peer's ball is the master's ball mirrored in X at the same Y, shown, and inside the playfield, with the peer's velocity kept; on a score, the peer's counters equal the master's byte for byte, and otherwise they are unchanged |

## Left out

- `src/pong.cpp` and `src/pong.h`: a separate single-board Pong class with floating-point physics, spin and an AI paddle. The firmware's loop does not use it.
- Rendering (`render`, `drawStaticFrame`): display calls only. The model exposes the render-due flag of `GameLoop.DrawStep`.
- `setup()` hardware bring-up: pin modes, display init with its halting `while (1)` on failure, and CAN configuration. Its clamping of the start positions and hiding of the ball are in `Game.Init`.
- Interrupt delivery of frames and the `volatile` flag: each received frame is applied atomically, at the start of a pass, in arrival order.
- `delay(150)`, `delay(200)` and all `Serial` output: no-ops. The election debounce delay therefore does not advance the model's clock.
- Bus transmit failures: `can0.write` always appends its frame. A lost frame is a frame the peer never gets in its inbox.
- Clock sampling: the source calls `millis()` once for the due check and again to stamp the timer. The model reads the clock once per pass and uses that value for every gate.
- `GameLoop.LoopStep`: does not restate the complete state and frame sequence of a pass. It and `GameLoop.LoopStepFrames` pin the render flag, the first (paddle) frame, the last (ball) frame and the empty case; the rest follows from the contracts of the steps it chains.

=== FILE: bounded.dfy ===
/** Fixed-width integers of the firmware and its `clamp` helper.

    The firmware runs on a 32-bit microcontroller: scores and wire bytes are
    `uint8_t`, timestamps are `uint32_t`. Dafny integers are unbounded, so the
    widths are written out here as subset types and every wrap-around is an
    explicit `%`.
 */
module Bounded {

  const BYTE_MOD: int := 0x100
  const WORD_MOD: int := 0x1_0000_0000

  /** An `uint8_t` value. */
  type byte = b: int | 0 <= b < 0x100

  /** An `uint32_t` value, as returned by the millisecond clock. */
  type u32 = n: int | 0 <= n < 0x1_0000_0000

  /** Distance between two integers on the number line. */
  function Dist(a: int, b: int): nat {
    if a >= b then a - b else b - a
  }

  /** The firmware's `clamp(value, minValue, maxValue)`: the lower bound is
      tested first, so on an empty range a value below `lo` yields `lo` and
      any other value yields `hi`. On a proper range the result is the point
      of `[lo, hi]` nearest to `v`, which makes it the identity inside it. */
  function Clamp(v: int, lo: int, hi: int): (r: int)
    ensures lo <= hi ==> lo <= r <= hi
    ensures lo <= v <= hi ==> r == v
    ensures lo <= hi ==> forall w :: lo <= w <= hi ==> Dist(r, v) <= Dist(w, v)
    ensures lo > hi ==> r == (if v < lo then lo else hi)
  {
    if v < lo then lo
    else if v > hi then hi
    else v
  }

  /** `uint8_t` increment: `255 + 1` wraps to `0`. */
  function IncByte(b: byte): (r: byte)
    ensures (b + 1) % BYTE_MOD == r
    ensures r != b
    ensures b < 0xFF ==> r == b + 1
  {
    if b == 0xFF then 0 else b + 1
  }
}

=== FILE: bus.dfy ===
/** CAN frames as the firmware builds and receives them. */
module Bus {
  import opened Bounded

  const GROUP_ID: int := 5
  const PADDLE_ID: u32 := GROUP_ID + 20
  const BALL_ID: u32 := GROUP_ID + 50
  const SCORE_ID: u32 := GROUP_ID + 55

  /** A classic CAN data field: always eight bytes, of which `len` count. */
  type Payload = s: seq<byte> | |s| == 8 witness [0, 0, 0, 0, 0, 0, 0, 0]

  datatype Frame = Frame(id: u32, len: byte, buf: Payload)

  /** True when no frame in `fs` carries identifier `id`. */
  predicate NoneWithId(fs: seq<Frame>, id: u32) {
    forall k :: 0 <= k < |fs| ==> fs[k].id != id
  }
}

=== FILE: codec.dfy ===
/** Link codec: the one- and two-byte payloads of the three frame kinds.

    A paddle travels as the row of its centre, clamped to `0..63`; the
    receiver turns it back into a top row clamped to the paddle range. The
    ball travels as its position clamped to the display (`0..127`, `0..63`),
    and the receiver mirrors X because every device draws its own paddle on
    the right. Scores travel as two plain bytes.
 */
module Codec {
  import opened Bounded
  import opened Geometry
  import opened Bus

  const HALF_PADDLE: int := PADDLE_HEIGHT / 2

  /** `paddleTopToCenter`: the wire byte for a paddle whose top row is `top`. */
  function PaddleTopToCenter(top: int): (c: byte)
    ensures c < SCREEN_HEIGHT
    ensures 0 <= top + HALF_PADDLE < SCREEN_HEIGHT ==> c == top + HALF_PADDLE
    ensures top + HALF_PADDLE < 0 ==> c == 0
    ensures top + HALF_PADDLE >= SCREEN_HEIGHT ==> c == SCREEN_HEIGHT - 1
  {
    Clamp(top + HALF_PADDLE, 0, SCREEN_HEIGHT - 1)
  }

  /** `paddleCenterToTop`: the top row for a received centre byte. Every byte
      decodes to a legal paddle position, and on the centres that legal
      paddles produce it is a right inverse of the encoder. */
  function PaddleCenterToTop(c: byte): (top: int)
    ensures PADDLE_TOP_MIN <= top <= PADDLE_TOP_MAX
    ensures c <= PADDLE_TOP_MIN + HALF_PADDLE ==> top == PADDLE_TOP_MIN
    ensures c >= PADDLE_TOP_MAX + HALF_PADDLE ==> top == PADDLE_TOP_MAX
    ensures PADDLE_TOP_MIN + HALF_PADDLE <= c <= PADDLE_TOP_MAX + HALF_PADDLE ==>
              PaddleTopToCenter(top) == c
  {
    Clamp(c - HALF_PADDLE, PLAY_TOP, PLAY_BOT - PADDLE_HEIGHT)
  }

  /** Decoding the encoding of a legal paddle gives the same paddle back. */
  lemma PaddleRoundTrip(top: int)
    requires PADDLE_TOP_MIN <= top <= PADDLE_TOP_MAX
    ensures PaddleTopToCenter(top) <= SCREEN_HEIGHT - 1
    ensures PaddleCenterToTop(PaddleTopToCenter(top)) == top
  {
  }

  /** The receiver's view of a sender's X coordinate. */
  function MirrorX(x: int): int {
    (SCREEN_WIDTH - 1) - x
  }

  /** Mirroring is an involution and maps the display width onto itself. */
  lemma MirrorInvolutive(x: int)
    ensures MirrorX(MirrorX(x)) == x
    ensures 0 <= x < SCREEN_WIDTH <==> 0 <= MirrorX(x) < SCREEN_WIDTH
    ensures BALL_X_MIN <= x <= BALL_X_MAX <==> BALL_X_MIN <= MirrorX(x) <= BALL_X_MAX
  {
  }

  /** The paddle frame: id `PADDLE_ID`, one byte. */
  function EncodePaddle(top: int): (f: Frame)
    ensures f.id == PADDLE_ID && f.len == 1
    ensures f.buf[0] < SCREEN_HEIGHT
    ensures PADDLE_TOP_MIN <= top <= PADDLE_TOP_MAX ==> f.buf[0] == top + HALF_PADDLE
    ensures PADDLE_TOP_MIN <= top <= PADDLE_TOP_MAX ==> PaddleCenterToTop(f.buf[0]) == top
  {
    Frame(PADDLE_ID, 1, [PaddleTopToCenter(top), 0, 0, 0, 0, 0, 0, 0])
  }

  /** The ball frame: id `BALL_ID`, two bytes, each coordinate clamped to the
      display so that an out-of-range value saturates instead of wrapping
      in the `uint8_t` cast. */
  function EncodeBall(x: int, y: int): (f: Frame)
    ensures f.id == BALL_ID && f.len == 2
    ensures f.buf[0] < SCREEN_WIDTH && f.buf[1] < SCREEN_HEIGHT
    ensures 0 <= x < SCREEN_WIDTH ==> f.buf[0] == x
    ensures 0 <= y < SCREEN_HEIGHT ==> f.buf[1] == y
    ensures x < 0 ==> f.buf[0] == 0
    ensures y < 0 ==> f.buf[1] == 0
    ensures x >= SCREEN_WIDTH ==> f.buf[0] == SCREEN_WIDTH - 1
    ensures y >= SCREEN_HEIGHT ==> f.buf[1] == SCREEN_HEIGHT - 1
  {
    Frame(BALL_ID, 2, [Clamp(x, 0, SCREEN_WIDTH - 1), Clamp(y, 0, SCREEN_HEIGHT - 1), 0, 0, 0, 0, 0, 0])
  }

  /** The score frame: id `SCORE_ID`, left score then right score. */
  function EncodeScore(left: byte, right: byte): (f: Frame)
    ensures f.id == SCORE_ID && f.len == 2
    ensures f.buf[0] == left && f.buf[1] == right
  {
    Frame(SCORE_ID, 2, [left, right, 0, 0, 0, 0, 0, 0])
  }
}

=== FILE: election.dfy ===
/** Leader election: the first click on a device whose lock is still open
    makes it master for the rest of the session and serves the ball. */
module Election {
  import opened Geometry
  import opened Game

  /** One pass of the election block of `loop()`. */
  function Elect(s: State, click: bool): (t: State)
    ensures s.masterLocked || !click ==> t == s
    ensures !s.masterLocked && click ==>
              && t.isMaster && t.masterLocked
              && t.ball == ServeBall(s.ownPaddleY, BALL_VELOCITY_Y_INIT)
              && t == s.(isMaster := true, masterLocked := true, ball := t.ball)
    ensures t.masterLocked <==> s.masterLocked || click
    ensures Valid(s) ==> Valid(t)
  {
    if !s.masterLocked && click then
      s.(isMaster := true, masterLocked := true,
         ball := Ball(PADDLE_X_OWN - 4, s.ownPaddleY + PADDLE_HEIGHT / 2,
                      BALL_VELOCITY_X_INIT, BALL_VELOCITY_Y_INIT, true))
    else
      s
  }

  /** After a successful election further passes are no-ops, whatever the
      button does: the transition happens once. */
  lemma ElectIdempotent(s: State, c1: bool, c2: bool)
    ensures Elect(Elect(s, c1), c2) == Elect(s, c1 || c2)
  {
  }
}

=== FILE: game.dfy ===
/** The firmware's global game state as one immutable record.

    `isMaster` and `masterLocked` are the leader-election flags; the four
    timers are the `static uint32_t last…` cells of the periodic activities.
 */
module Game {
  import opened Bounded
  import opened Geometry
  import opened Bus

  datatype Ball = Ball(x: int, y: int, vx: int, vy: int, visible: bool)

  datatype Timers = Timers(paddleMove: u32, paddleSend: u32, ballUpdate: u32, draw: u32)

  datatype State = State(
    ownPaddleY: int,
    opponentPaddleY: int,
    ball: Ball,
    scoreLeft: byte,
    scoreRight: byte,
    isMaster: bool,
    masterLocked: bool,
    timers: Timers)

  /** A new state together with the frames written to the bus, in order. */
  datatype Sent = Sent(state: State, frames: seq<Frame>)

  predicate IsUnit(v: int) {
    v == 1 || v == -1
  }

  predicate PaddleInRange(top: int) {
    PADDLE_TOP_MIN <= top <= PADDLE_TOP_MAX
  }

  /** What holds of the state between any two steps of a session: both
      paddles are legal, the ball moves one pixel per tick on each axis, its
      position is one a frame can produce (a mirrored byte for X, a byte for
      Y), the two election flags agree, and a master always shows its ball. */
  predicate Valid(s: State) {
    && PaddleInRange(s.ownPaddleY)
    && PaddleInRange(s.opponentPaddleY)
    && IsUnit(s.ball.vx)
    && IsUnit(s.ball.vy)
    && (SCREEN_WIDTH - 1) - 0xFF <= s.ball.x <= SCREEN_WIDTH - 1
    && 0 <= s.ball.y <= 0xFF
    && s.isMaster == s.masterLocked
    && (s.isMaster ==> s.ball.visible)
  }

  /** A serve from in front of the own paddle, vertically at its centre. */
  function ServeBall(ownTop: int, vy: int): Ball {
    Ball(SERVE_X, ownTop + PADDLE_HEIGHT / 2, BALL_VELOCITY_X_INIT, vy, true)
  }

  /** The state after the global initialisers and `setup()`. */
  function Init(): (s: State)
    ensures Valid(s)
    ensures !s.isMaster && !s.masterLocked && !s.ball.visible
    ensures s.scoreLeft == 0 && s.scoreRight == 0
    ensures s.ownPaddleY == s.opponentPaddleY == (PADDLE_TOP_MIN + PADDLE_TOP_MAX) / 2
    ensures s.timers == Timers(0, 0, 0, 0)
  {
    var midTop := (PLAY_TOP + PLAY_BOT - PADDLE_HEIGHT) / 2;
    State(
      Clamp(midTop, PLAY_TOP, PLAY_BOT - PADDLE_HEIGHT),
      Clamp(midTop, PLAY_TOP, PLAY_BOT - PADDLE_HEIGHT),
      Ball((PLAY_LEFT + PLAY_RIGHT) / 2, (PLAY_TOP + PLAY_BOT) / 2,
           BALL_VELOCITY_X_INIT, BALL_VELOCITY_Y_INIT, false),
      0, 0,
      false, false,
      Timers(0, 0, 0, 0))
  }
}

=== FILE: game_loop.dfy ===
/** One pass of `loop()` and whole sessions of passes.

    Each pass, in order: drain received frames, the election check, the
    paddle motion step, the paddle broadcast, the master's physics tick with
    its score and ball broadcasts, and the render gate. The clock, the
    joystick and the receive queue are inputs; frames written to the bus and
    the render signal are outputs.
 */
module GameLoop {
  import opened Bounded
  import opened Geometry
  import opened Bus
  import opened Codec
  import opened Game
  import opened Timing
  import opened Ingest
  import opened Election
  import opened PaddleControl
  import opened Physics

  /** What one pass reads: the frames received since the last pass, the
      joystick (true = pressed) and the millisecond clock. */
  datatype Inputs = Inputs(inbox: seq<Frame>, click: bool, up: bool, down: bool, now: u32)

  /** What one pass leaves: the new state, the frames written, and whether
      the renderer is due. */
  datatype Iteration = Iteration(state: State, sent: seq<Frame>, renderDue: bool)

  /** The render gate: every `DRAW_INTERVAL_MS` signal the renderer, which
      only reads the state. */
  function DrawStep(s: State, now: u32): (r: Iteration)
    ensures r.sent == []
    ensures r.renderDue <==> Due(now, s.timers.draw, DRAW_INTERVAL_MS)
    ensures r.state == s.(timers := r.state.timers)
    ensures r.state.timers == s.timers.(draw := if r.renderDue then now else s.timers.draw)
  {
    if Due(now, s.timers.draw, DRAW_INTERVAL_MS) then
      Iteration(s.(timers := s.timers.(draw := now)), [], true)
    else
      Iteration(s, [], false)
  }

  /** One pass of `loop()`. The invariant survives; the lock closes on the
      first click and never reopens; a device that is not master afterwards
      sent only paddle frames and kept its ball velocity; at most one paddle,
      one score and one ball frame leave per pass. */
  function LoopStep(s: State, io: Inputs): (r: Iteration)
    ensures Valid(s) ==> Valid(r.state)
    ensures r.state.masterLocked <==> s.masterLocked || io.click
    ensures r.state.isMaster <==> s.isMaster || (!s.masterLocked && io.click)
    ensures !r.state.isMaster ==>
              && NoneWithId(r.sent, BALL_ID) && NoneWithId(r.sent, SCORE_ID)
              && r.state.ball.vx == s.ball.vx && r.state.ball.vy == s.ball.vy
    ensures |r.sent| <= 3
    ensures Valid(s) ==> -1 <= r.state.ownPaddleY - s.ownPaddleY <= 1
    ensures r.renderDue <==> Due(io.now, s.timers.draw, DRAW_INTERVAL_MS)
  {
    var received := ApplyAll(s, io.inbox);
    var elected := Elect(received, io.click);
    var moved := PaddleMove(elected, io.up, io.down, io.now);
    var paddle := PaddleSend(moved, io.now);
    var ball := PhysicsStep(paddle.state, io.now);
    var drawn := DrawStep(ball.state, io.now);
    Iteration(drawn.state, paddle.frames + ball.frames, drawn.renderDue)
  }

  /** Where the frames of a pass come from: a due paddle broadcast is the
      first frame and carries the row after this pass's move; a due master's
      ball frame is the last frame and carries the ball the pass leaves; with
      neither gate open nothing is sent. */
  lemma LoopStepFrames(s: State, io: Inputs)
    ensures var r := LoopStep(s, io);
            Due(io.now, s.timers.paddleSend, PADDLE_SEND_INTERVAL_MS) ==>
              && |r.sent| >= 1 && r.sent[0].id == PADDLE_ID
              && (Valid(s) ==> PaddleCenterToTop(r.sent[0].buf[0]) == r.state.ownPaddleY)
    ensures var r := LoopStep(s, io);
            r.state.isMaster && Due(io.now, s.timers.ballUpdate, BALL_UPDATE_INTERVAL_MS) ==>
              |r.sent| >= 1 && r.sent[|r.sent| - 1] == EncodeBall(r.state.ball.x, r.state.ball.y)
    ensures var r := LoopStep(s, io);
            !Due(io.now, s.timers.paddleSend, PADDLE_SEND_INTERVAL_MS)
            && !(r.state.isMaster && Due(io.now, s.timers.ballUpdate, BALL_UPDATE_INTERVAL_MS)) ==>
              r.sent == []
  {
  }

  /** The final state of a session and every frame it wrote, in order. */
  datatype Session = Session(state: State, sent: seq<Frame>)

  predicate AnyClick(ins: seq<Inputs>) {
    exists i :: 0 <= i < |ins| && ins[i].click
  }

  /** The lock is local: received frames never close it, so a board that
      has been following another master's ball still becomes master itself
      on its own first click. Received ball frames are applied before the
      election, so the serve from its own paddle is what the pass leaves
      when no physics tick follows in the same pass. Two masters can then
      coexist. */
  lemma LateClickStillElects(s: State, io: Inputs)
    requires Valid(s) && !s.masterLocked && io.click
    requires !Due(io.now, s.timers.ballUpdate, BALL_UPDATE_INTERVAL_MS)
    ensures LoopStep(s, io).state.isMaster
    ensures LoopStep(s, io).state.ball == ServeBall(s.ownPaddleY, BALL_VELOCITY_Y_INIT)
  {
  }

  /** A session has a click iff its first pass or the rest has one. */
  lemma AnyClickSplit(ins: seq<Inputs>)
    requires |ins| > 0
    ensures AnyClick(ins) <==> ins[0].click || AnyClick(ins[1..])
  {
    if AnyClick(ins) && !ins[0].click {
      var i :| 0 <= i < |ins| && ins[i].click;
      assert ins[1..][i - 1].click;
    }
    if AnyClick(ins[1..]) {
      var i :| 0 <= i < |ins[1..]| && ins[1..][i].click;
      assert ins[i + 1].click;
    }
  }

  /** A session: one `LoopStep` per element of `ins`. */
  function Run(s: State, ins: seq<Inputs>): (r: Session)
    ensures Valid(s) ==> Valid(r.state)
    ensures r.state.masterLocked <==> s.masterLocked || AnyClick(ins)
    decreases |ins|
  {
    if |ins| == 0 then Session(s, [])
    else
      var it := LoopStep(s, ins[0]);
      var rest := Run(it.state, ins[1..]);
      AnyClickSplit(ins);
      Session(rest.state, it.sent + rest.sent)
  }

  /** How many passes of a session turned the device into master. */
  function RoleChanges(s: State, ins: seq<Inputs>): nat
    decreases |ins|
  {
    if |ins| == 0 then 0
    else
      var t := LoopStep(s, ins[0]).state;
      (if !s.isMaster && t.isMaster then 1 else 0) + RoleChanges(t, ins[1..])
  }

  /** Over any session the role changes at most once: exactly once if the
      device started unlocked and the button was pressed at least once, and
      never otherwise. */
  lemma {:induction false} RoleChangesOnce(s: State, ins: seq<Inputs>)
    requires Valid(s)
    ensures RoleChanges(s, ins) == if !s.masterLocked && AnyClick(ins) then 1 else 0
    decreases |ins|
  {
    if |ins| > 0 {
      var t := LoopStep(s, ins[0]).state;
      RoleChangesOnce(t, ins[1..]);
      AnyClickSplit(ins);
    }
  }

  /** A device whose button is never pressed never simulates: it stays a
      follower, writes only paddle frames, and its ball velocity is never
      touched (received ball frames carry no velocity). */
  lemma {:induction false} FollowerNeverSimulates(s: State, ins: seq<Inputs>)
    requires !s.isMaster && !s.masterLocked
    requires forall i :: 0 <= i < |ins| ==> !ins[i].click
    ensures var r := Run(s, ins);
            && !r.state.isMaster
            && NoneWithId(r.sent, BALL_ID) && NoneWithId(r.sent, SCORE_ID)
            && r.state.ball.vx == s.ball.vx && r.state.ball.vy == s.ball.vy
    decreases |ins|
  {
    if |ins| > 0 {
      var it := LoopStep(s, ins[0]);
      FollowerNeverSimulates(it.state, ins[1..]);
      var rest := Run(it.state, ins[1..]);
      assert Run(s, ins).sent == it.sent + rest.sent;
    }
  }
}

=== FILE: geometry.dfy ===
/** Compile-time geometry of the 128 x 64 display and the playfield inside
    its double border, with the bounds derived from it that the game logic
    keeps the paddles and the ball inside. */
module Geometry {

  const SCREEN_WIDTH: int := 128
  const SCREEN_HEIGHT: int := 64

  const BORDER: int := 3
  const TITLE_H: int := 0

  const PLAY_LEFT: int := BORDER + 1
  const PLAY_RIGHT: int := SCREEN_WIDTH - BORDER - 2
  const PLAY_TOP: int := BORDER + TITLE_H + 1
  const PLAY_BOT: int := SCREEN_HEIGHT - BORDER - 2

  const PADDLE_WIDTH: int := 2
  const PADDLE_HEIGHT: int := 20
  /** Each device draws its own paddle on the right ... */
  const PADDLE_X_OWN: int := PLAY_RIGHT - 2 - PADDLE_WIDTH
  /** ... and the remote player's paddle on the left. */
  const PADDLE_X_OPPONENT: int := PLAY_LEFT + 2

  const BALL_RADIUS: int := 2

  const BALL_VELOCITY_X_INIT: int := -1
  const BALL_VELOCITY_Y_INIT: int := 1

  /** Range of a paddle's top row: the whole paddle stays in the playfield. */
  const PADDLE_TOP_MIN: int := PLAY_TOP
  const PADDLE_TOP_MAX: int := PLAY_BOT - PADDLE_HEIGHT

  /** Range of the ball's centre that keeps the whole ball in the playfield. */
  const BALL_X_MIN: int := PLAY_LEFT + BALL_RADIUS
  const BALL_X_MAX: int := PLAY_RIGHT - BALL_RADIUS
  const BALL_Y_MIN: int := PLAY_TOP + BALL_RADIUS
  const BALL_Y_MAX: int := PLAY_BOT - BALL_RADIUS

  /** Where a serve starts: just in front of the own paddle. */
  const SERVE_X: int := PADDLE_X_OWN - 4
}

=== FILE: ingest.dfy ===
/** Frame ingest: `onCanReceive` and the drain of the receive queue.

    Frames are dispatched on identifier and length. Paddle frames set the
    opponent paddle (not mirrored: both devices share the vertical axis),
    ball frames set the ball with X mirrored, score frames overwrite both
    counters verbatim (no left/right swap). Anything else is dropped.
 */
module Ingest {
  import opened Bounded
  import opened Geometry
  import opened Bus
  import opened Codec
  import opened Game

  datatype Option<T> = None | Some(value: T)

  predicate IsPaddleFrame(f: Frame) { f.id == PADDLE_ID && f.len >= 1 }
  predicate IsBallFrame(f: Frame) { f.id == BALL_ID && f.len >= 2 }
  predicate IsScoreFrame(f: Frame) { f.id == SCORE_ID && f.len >= 2 }

  /** Whether `onCanReceive` acts on the frame at all. */
  predicate Accepted(f: Frame) {
    IsPaddleFrame(f) || IsBallFrame(f) || IsScoreFrame(f)
  }

  /** `onCanReceive`: apply one received frame. Only the opponent paddle,
      the ball position and visibility, and the scores can change; a frame
      that is not accepted changes nothing; the state invariant survives
      any frame whatsoever. */
  function OnCanReceive(s: State, f: Frame): (t: State)
    ensures t.ownPaddleY == s.ownPaddleY && t.timers == s.timers
    ensures t.isMaster == s.isMaster && t.masterLocked == s.masterLocked
    ensures t.ball.vx == s.ball.vx && t.ball.vy == s.ball.vy
    ensures !Accepted(f) ==> t == s
    ensures IsPaddleFrame(f) ==>
              t == s.(opponentPaddleY := t.opponentPaddleY) && PaddleInRange(t.opponentPaddleY)
    ensures IsBallFrame(f) ==>
              && t == s.(ball := t.ball)
              && MirrorX(t.ball.x) == f.buf[0] && t.ball.y == f.buf[1] && t.ball.visible
    ensures IsScoreFrame(f) ==>
              t == s.(scoreLeft := f.buf[0], scoreRight := f.buf[1])
    ensures Valid(s) ==> Valid(t)
  {
    if f.id == PADDLE_ID && f.len >= 1 then
      s.(opponentPaddleY := PaddleCenterToTop(f.buf[0]))
    else if f.id == BALL_ID && f.len >= 2 then
      var receivedX := f.buf[0];
      var receivedY := f.buf[1];
      s.(ball := s.ball.(x := (SCREEN_WIDTH - 1) - receivedX, y := receivedY, visible := true))
    else if f.id == SCORE_ID && f.len >= 2 then
      s.(scoreLeft := f.buf[0], scoreRight := f.buf[1])
    else
      s
  }

  /** A ball frame built from on-screen coordinates arrives as the mirrored
      X, inside the display, at the same Y: mirroring back recovers the
      sender's X. Nothing but the ball changes. */
  lemma BallFrameRoundTrip(s: State, x: int, y: int)
    requires 0 <= x < SCREEN_WIDTH && 0 <= y < SCREEN_HEIGHT
    ensures var t := OnCanReceive(s, EncodeBall(x, y));
            && t == s.(ball := s.ball.(x := MirrorX(x), y := y, visible := true))
            && 0 <= t.ball.x < SCREEN_WIDTH
            && MirrorX(t.ball.x) == x
  {
  }

  /** A score frame arrives as the same two counters, in the same order. */
  lemma ScoreFrameRoundTrip(s: State, left: byte, right: byte)
    ensures OnCanReceive(s, EncodeScore(left, right)) == s.(scoreLeft := left, scoreRight := right)
  {
  }

  /** The state after applying `fs` in order, one `onCanReceive` each. */
  function ApplyAll(s: State, fs: seq<Frame>): (t: State)
    ensures t.ownPaddleY == s.ownPaddleY && t.timers == s.timers
    ensures t.isMaster == s.isMaster && t.masterLocked == s.masterLocked
    ensures t.ball.vx == s.ball.vx && t.ball.vy == s.ball.vy
    ensures Valid(s) ==> Valid(t)
    decreases |fs|
  {
    if |fs| == 0 then s
    else OnCanReceive(ApplyAll(s, fs[..|fs| - 1]), fs[|fs| - 1])
  }

  /** Applying one frame, or two in order, through `ApplyAll`. */
  lemma ApplyAllShort(s: State, f: Frame, g: Frame)
    ensures ApplyAll(s, [f]) == OnCanReceive(s, f)
    ensures ApplyAll(s, [f, g]) == OnCanReceive(OnCanReceive(s, f), g)
  {
    assert [f][..0] == [];
    assert [f, g][..1] == [f];
  }

  /** The centre byte of the last accepted paddle frame in `fs`, if any. */
  function LastPaddleCenter(fs: seq<Frame>): Option<byte>
    decreases |fs|
  {
    if |fs| == 0 then None
    else if IsPaddleFrame(fs[|fs| - 1]) then Some(fs[|fs| - 1].buf[0])
    else LastPaddleCenter(fs[..|fs| - 1])
  }

  /** The two bytes of the last accepted score frame in `fs`, if any. */
  function LastScore(fs: seq<Frame>): Option<(byte, byte)>
    decreases |fs|
  {
    if |fs| == 0 then None
    else if IsScoreFrame(fs[|fs| - 1]) then Some((fs[|fs| - 1].buf[0], fs[|fs| - 1].buf[1]))
    else LastScore(fs[..|fs| - 1])
  }

  /** Last value wins for the opponent paddle: after a burst of frames it is
      the decoding of the newest paddle frame, or unchanged if there was none. */
  lemma {:induction false} OpponentPaddleLastWins(s: State, fs: seq<Frame>)
    ensures ApplyAll(s, fs).opponentPaddleY ==
              match LastPaddleCenter(fs)
              case None => s.opponentPaddleY
              case Some(c) => PaddleCenterToTop(c)
    decreases |fs|
  {
    if |fs| > 0 {
      OpponentPaddleLastWins(s, fs[..|fs| - 1]);
    }
  }

  /** Last value wins for the score: after a burst of frames both counters are
      the bytes of the newest score frame, or unchanged if there was none. */
  lemma {:induction false} ScoreLastWins(s: State, fs: seq<Frame>)
    ensures var t := ApplyAll(s, fs);
            match LastScore(fs)
            case None => t.scoreLeft == s.scoreLeft && t.scoreRight == s.scoreRight
            case Some(p) => t.scoreLeft == p.0 && t.scoreRight == p.1
    decreases |fs|
  {
    if |fs| > 0 {
      ScoreLastWins(s, fs[..|fs| - 1]);
    }
  }

  /** The receive-queue drain (`can0.events()`): handles queued frames one at
      a time, oldest first. */
  method Drain(s: State, inbox: seq<Frame>) returns (t: State)
    ensures t == ApplyAll(s, inbox)
    ensures t.ownPaddleY == s.ownPaddleY && t.isMaster == s.isMaster
    ensures Valid(s) ==> Valid(t)
  {
    t := s;
    var i := 0;
    while i < |inbox|
      invariant 0 <= i <= |inbox|
      invariant t == ApplyAll(s, inbox[..i])
    {
      assert inbox[..i + 1][..i] == inbox[..i];
      t := OnCanReceive(t, inbox[i]);
      i := i + 1;
    }
    assert inbox[..|inbox|] == inbox;
  }
}

=== FILE: paddle.dfy ===
/** Local paddle: the joystick motion step and the periodic paddle broadcast. */
module PaddleControl {
  import opened Bounded
  import opened Geometry
  import opened Bus
  import opened Codec
  import opened Game
  import opened Timing

  /** The body of the motion block: one row up if only up is held, one row
      down if only down is held, then clamp to the paddle range. From a legal
      position the paddle moves up exactly when only up is held and it is not
      at the top, down exactly when only down is held and it is not at the
      bottom, and otherwise stays. */
  function MoveStep(top: int, up: bool, down: bool): (r: int)
    ensures PaddleInRange(r)
    ensures PaddleInRange(top) ==> -1 <= r - top <= 1
    ensures PaddleInRange(top) ==> (r == top - 1 <==> up && !down && top > PADDLE_TOP_MIN)
    ensures PaddleInRange(top) ==> (r == top + 1 <==> down && !up && top < PADDLE_TOP_MAX)
  {
    var y1 := if up && !down then top - 1 else top;
    var y2 := if down && !up then y1 + 1 else y1;
    Clamp(y2, PLAY_TOP, PLAY_BOT - PADDLE_HEIGHT)
  }

  /** The gated motion block: runs every `PADDLE_MOVE_INTERVAL_MS`; only the
      own paddle and its timer can change, and the paddle stays legal. */
  function PaddleMove(s: State, up: bool, down: bool, now: u32): (t: State)
    ensures !Due(now, s.timers.paddleMove, PADDLE_MOVE_INTERVAL_MS) ==> t == s
    ensures Due(now, s.timers.paddleMove, PADDLE_MOVE_INTERVAL_MS) ==>
              t.timers.paddleMove == now && PaddleInRange(t.ownPaddleY)
              && t.ownPaddleY == MoveStep(s.ownPaddleY, up, down)
    ensures t.(ownPaddleY := s.ownPaddleY, timers := t.timers.(paddleMove := s.timers.paddleMove)) == s
    ensures PaddleInRange(s.ownPaddleY) ==> -1 <= t.ownPaddleY - s.ownPaddleY <= 1
    ensures Valid(s) ==> Valid(t)
  {
    if Due(now, s.timers.paddleMove, PADDLE_MOVE_INTERVAL_MS) then
      s.(ownPaddleY := MoveStep(s.ownPaddleY, up, down),
         timers := s.timers.(paddleMove := now))
    else
      s
  }

  /** The gated paddle broadcast: every `PADDLE_SEND_INTERVAL_MS` one paddle
      frame, from which the peer recovers the own paddle exactly. */
  function PaddleSend(s: State, now: u32): (r: Sent)
    ensures r.state == s.(timers := r.state.timers)
    ensures r.state.timers == s.timers.(paddleSend := r.state.timers.paddleSend)
    ensures Due(now, s.timers.paddleSend, PADDLE_SEND_INTERVAL_MS) ==>
              r.state.timers.paddleSend == now && |r.frames| == 1
              && r.frames[0].id == PADDLE_ID && r.frames[0].len == 1
              && (PaddleInRange(s.ownPaddleY) ==> PaddleCenterToTop(r.frames[0].buf[0]) == s.ownPaddleY)
    ensures Due(now, s.timers.paddleSend, PADDLE_SEND_INTERVAL_MS) ==> r.frames == [EncodePaddle(s.ownPaddleY)]
    ensures !Due(now, s.timers.paddleSend, PADDLE_SEND_INTERVAL_MS) ==> r == Sent(s, [])
  {
    if Due(now, s.timers.paddleSend, PADDLE_SEND_INTERVAL_MS) then
      Sent(s.(timers := s.timers.(paddleSend := now)), [EncodePaddle(s.ownPaddleY)])
    else
      Sent(s, [])
  }
}

=== FILE: physics.dfy ===
/** Integer ball physics, run only by the master every
    `BALL_UPDATE_INTERVAL_MS`: integrate, bounce off the top and bottom
    walls, bounce off either paddle, score and re-serve, or clamp X back
    into the playfield. */
module Physics {
  import opened Bounded
  import opened Geometry
  import opened Codec
  import opened Game
  import opened Timing

  /** X where a ball bounced by the opponent's (left) paddle is put back. */
  const OPPONENT_RETURN_X: int := PADDLE_X_OPPONENT + PADDLE_WIDTH + BALL_RADIUS
  /** X where a ball bounced by the own (right) paddle is put back. */
  const OWN_RETURN_X: int := PADDLE_X_OWN - BALL_RADIUS

  function Integrate(b: Ball): Ball {
    b.(x := b.x + b.vx, y := b.y + b.vy)
  }

  /** Top wall first, then bottom wall, each clamping Y and reversing VY. */
  function BounceWalls(b: Ball): (r: Ball)
    ensures BALL_Y_MIN <= r.y <= BALL_Y_MAX
    ensures r.x == b.x && r.vx == b.vx && r.visible == b.visible
    ensures BALL_Y_MIN < b.y < BALL_Y_MAX ==> r == b
    ensures !(BALL_Y_MIN < b.y < BALL_Y_MAX) ==> r.vy == -b.vy
    ensures b.y <= BALL_Y_MIN ==> r.y == BALL_Y_MIN
    ensures b.y >= BALL_Y_MAX ==> r.y == BALL_Y_MAX
  {
    var b1 := if b.y <= PLAY_TOP + BALL_RADIUS then b.(y := PLAY_TOP + BALL_RADIUS, vy := -b.vy) else b;
    if b1.y >= PLAY_BOT - BALL_RADIUS then b1.(y := PLAY_BOT - BALL_RADIUS, vy := -b1.vy) else b1
  }

  /** The ball's left edge has reached the opponent paddle's face and its
      centre row lies within the paddle. */
  predicate HitsOpponent(b: Ball, oppTop: int) {
    && b.x - BALL_RADIUS <= PADDLE_X_OPPONENT + PADDLE_WIDTH
    && b.y >= oppTop
    && b.y <= oppTop + PADDLE_HEIGHT
  }

  /** The ball's right edge has reached the own paddle's face and its centre
      row lies within the paddle. */
  predicate HitsOwn(b: Ball, ownTop: int) {
    && b.x + BALL_RADIUS >= PADDLE_X_OWN
    && b.y >= ownTop
    && b.y <= ownTop + PADDLE_HEIGHT
  }

  /** The two paddle checks, opponent first, each on the outcome of the one
      before. A bounce off the opponent paddle puts the ball where the own
      paddle cannot reach it, so at most one of them fires: the sequence is
      the exclusive choice stated here. */
  function Collide(b: Ball, ownTop: int, oppTop: int): (r: Ball)
    ensures r == (if HitsOpponent(b, oppTop) then b.(x := OPPONENT_RETURN_X, vx := -b.vx)
                  else if HitsOwn(b, ownTop) then b.(x := OWN_RETURN_X, vx := -b.vx)
                  else b)
  {
    var b1 := if HitsOpponent(b, oppTop) then b.(x := PADDLE_X_OPPONENT + PADDLE_WIDTH + BALL_RADIUS, vx := -b.vx) else b;
    if HitsOwn(b1, ownTop) then b1.(x := PADDLE_X_OWN - BALL_RADIUS, vx := -b1.vx) else b1
  }

  datatype TickResult = TickResult(ball: Ball, scoreLeft: byte, scoreRight: byte, scored: bool)

  /** The ball before the scoring check: moved, bounced off walls and paddles. */
  function Advance(b: Ball, ownTop: int, oppTop: int): Ball {
    Collide(BounceWalls(Integrate(b)), ownTop, oppTop)
  }

  /** One physics tick. Afterwards X lies in the playfield; with no score both
      counters stay and Y lies in the playfield too; on a score exactly one
      counter advances by one (as a `uint8_t`) and the ball is re-served in
      front of the own paddle towards the opponent. Unit speeds stay unit. */
  function Tick(b: Ball, ownTop: int, oppTop: int, scoreLeft: byte, scoreRight: byte): (r: TickResult)
    ensures BALL_X_MIN <= r.ball.x <= BALL_X_MAX
    ensures !r.scored ==>
              && BALL_Y_MIN <= r.ball.y <= BALL_Y_MAX
              && r.scoreLeft == scoreLeft && r.scoreRight == scoreRight
              && r.ball.visible == b.visible
    ensures r.scored ==>
              && r.ball.x == SERVE_X && r.ball.y == ownTop + PADDLE_HEIGHT / 2
              && r.ball.vx == BALL_VELOCITY_X_INIT && IsUnit(r.ball.vy) && r.ball.visible
    ensures r.scored <==> r.scoreLeft != scoreLeft || r.scoreRight != scoreRight
    ensures r.scoreLeft == scoreLeft || r.scoreRight == scoreRight
    ensures r.scoreLeft != scoreLeft ==> r.scoreLeft == (scoreLeft + 1) % BYTE_MOD
    ensures r.scoreRight != scoreRight ==> r.scoreRight == (scoreRight + 1) % BYTE_MOD
    ensures IsUnit(b.vx) && IsUnit(b.vy) ==> IsUnit(r.ball.vx) && IsUnit(r.ball.vy)
    ensures !r.scored ==>
              var m := Advance(b, ownTop, oppTop);
              r.ball == m.(x := Clamp(m.x, BALL_X_MIN, BALL_X_MAX))
    ensures !r.scored ==>
              && r.ball.y == BounceWalls(Integrate(b)).y
              && r.ball.vy == BounceWalls(Integrate(b)).vy
              && r.ball.vx == Advance(b, ownTop, oppTop).vx
  {
    var m := Advance(b, ownTop, oppTop);
    var rightScores := m.x < PLAY_LEFT + BALL_RADIUS;
    var leftScores := m.x > PLAY_RIGHT - BALL_RADIUS;
    var newRight := if rightScores then IncByte(scoreRight) else scoreRight;
    var newLeft := if leftScores then IncByte(scoreLeft) else scoreLeft;
    if rightScores || leftScores then
      var vy := if m.vy >= 0 then BALL_VELOCITY_Y_INIT else -BALL_VELOCITY_Y_INIT;
      TickResult(ServeBall(ownTop, vy), newLeft, newRight, true)
    else
      TickResult(m.(x := Clamp(m.x, PLAY_LEFT + BALL_RADIUS, PLAY_RIGHT - BALL_RADIUS)), newLeft, newRight, false)
  }

  /** Free flight: a ball that stays clear of both walls and both paddle
      faces simply moves by its velocity, and nobody scores. */
  lemma FreeFlight(b: Ball, ownTop: int, oppTop: int, scoreLeft: byte, scoreRight: byte)
    requires BALL_Y_MIN < b.y + b.vy < BALL_Y_MAX
    requires OPPONENT_RETURN_X < b.x + b.vx < OWN_RETURN_X
    ensures var r := Tick(b, ownTop, oppTop, scoreLeft, scoreRight);
            !r.scored && r.ball == Integrate(b)
            && r.scoreLeft == scoreLeft && r.scoreRight == scoreRight
  {
  }

  /** The opponent paddle returns a ball that has reached its face (X at
      most 10 after moving) at a row it covers: the ball is put back at
      X = 10 moving the other way, and nobody scores. */
  lemma OpponentPaddleReturns(b: Ball, ownTop: int, oppTop: int, scoreLeft: byte, scoreRight: byte)
    requires BounceWalls(Integrate(b)).x <= OPPONENT_RETURN_X
    requires oppTop <= BounceWalls(Integrate(b)).y <= oppTop + PADDLE_HEIGHT
    ensures var r := Tick(b, ownTop, oppTop, scoreLeft, scoreRight);
            !r.scored && r.ball.x == OPPONENT_RETURN_X && r.ball.vx == -b.vx
  {
  }

  /** The own paddle returns a ball that has reached its face (X at least
      117 after moving) at a row it covers: the ball is put back at X = 117
      moving the other way, and nobody scores. */
  lemma OwnPaddleReturns(b: Ball, ownTop: int, oppTop: int, scoreLeft: byte, scoreRight: byte)
    requires BounceWalls(Integrate(b)).x >= OWN_RETURN_X
    requires ownTop <= BounceWalls(Integrate(b)).y <= ownTop + PADDLE_HEIGHT
    ensures var r := Tick(b, ownTop, oppTop, scoreLeft, scoreRight);
            !r.scored && r.ball.x == OWN_RETURN_X && r.ball.vx == -b.vx
  {
  }

  /** With a legal own paddle the ball ends every tick inside the playfield. */
  lemma TickKeepsBallInField(b: Ball, ownTop: int, oppTop: int, scoreLeft: byte, scoreRight: byte)
    requires PaddleInRange(ownTop)
    ensures var r := Tick(b, ownTop, oppTop, scoreLeft, scoreRight);
            BALL_X_MIN <= r.ball.x <= BALL_X_MAX && BALL_Y_MIN <= r.ball.y <= BALL_Y_MAX
  {
  }

  /** The own player (right counter) scores exactly when the moved ball has
      passed the left boundary at a row the opponent paddle does not cover. */
  lemma RightScoresIffOpponentMisses(b: Ball, ownTop: int, oppTop: int, scoreLeft: byte, scoreRight: byte)
    ensures var w := BounceWalls(Integrate(b));
            (Tick(b, ownTop, oppTop, scoreLeft, scoreRight).scoreRight != scoreRight
             <==> w.x < BALL_X_MIN && !(oppTop <= w.y <= oppTop + PADDLE_HEIGHT))
  {
  }

  /** The opponent (left counter) scores exactly when the moved ball has
      passed the right boundary at a row the own paddle does not cover. */
  lemma LeftScoresIffOwnMisses(b: Ball, ownTop: int, oppTop: int, scoreLeft: byte, scoreRight: byte)
    ensures var w := BounceWalls(Integrate(b));
            (Tick(b, ownTop, oppTop, scoreLeft, scoreRight).scoreLeft != scoreLeft
             <==> w.x > BALL_X_MAX && !(ownTop <= w.y <= ownTop + PADDLE_HEIGHT))
  {
  }

  /** A re-serve keeps the vertical direction the ball had after the wall
      bounce (zero counts as downwards). */
  lemma ServeKeepsVerticalDirection(b: Ball, ownTop: int, oppTop: int, scoreLeft: byte, scoreRight: byte)
    ensures var r := Tick(b, ownTop, oppTop, scoreLeft, scoreRight);
            r.scored ==> (r.ball.vy > 0 <==> BounceWalls(Integrate(b)).vy >= 0)
  {
  }

  /** The gated physics block of `loop()`. A non-master, or a master whose
      tick is not due, changes nothing and sends nothing. A due master runs
      one tick, stamps the timer, sends the score frame if somebody scored,
      then the ball frame, whose bytes are the new position exactly. */
  function PhysicsStep(s: State, now: u32): (r: Sent)
    ensures !s.isMaster || !Due(now, s.timers.ballUpdate, BALL_UPDATE_INTERVAL_MS) ==> r == Sent(s, [])
    ensures s.isMaster && Due(now, s.timers.ballUpdate, BALL_UPDATE_INTERVAL_MS) ==>
              && r.state == s.(ball := r.state.ball, scoreLeft := r.state.scoreLeft,
                               scoreRight := r.state.scoreRight, timers := s.timers.(ballUpdate := now))
              && 1 <= |r.frames| <= 2
              && (|r.frames| == 2 <==> r.state.scoreLeft != s.scoreLeft || r.state.scoreRight != s.scoreRight)
              && (|r.frames| == 2 ==> r.frames[0] == EncodeScore(r.state.scoreLeft, r.state.scoreRight))
              && r.frames[|r.frames| - 1] == EncodeBall(r.state.ball.x, r.state.ball.y)
              && (PaddleInRange(s.ownPaddleY) ==>
                    r.frames[|r.frames| - 1].buf[0] == r.state.ball.x
                    && r.frames[|r.frames| - 1].buf[1] == r.state.ball.y)
    ensures s.isMaster && Due(now, s.timers.ballUpdate, BALL_UPDATE_INTERVAL_MS) ==>
              var t := Tick(s.ball, s.ownPaddleY, s.opponentPaddleY, s.scoreLeft, s.scoreRight);
              && r.state.ball == t.ball
              && r.state.scoreLeft == t.scoreLeft && r.state.scoreRight == t.scoreRight
    ensures Valid(s) ==> Valid(r.state)
  {
    if s.isMaster && Due(now, s.timers.ballUpdate, BALL_UPDATE_INTERVAL_MS) then
      var t := Tick(s.ball, s.ownPaddleY, s.opponentPaddleY, s.scoreLeft, s.scoreRight);
      var s' := s.(ball := t.ball, scoreLeft := t.scoreLeft, scoreRight := t.scoreRight,
                   timers := s.timers.(ballUpdate := now));
      var scoreFrames := if t.scored then [EncodeScore(t.scoreLeft, t.scoreRight)] else [];
      Sent(s', scoreFrames + [EncodeBall(t.ball.x, t.ball.y)])
    else
      Sent(s, [])
  }
}

=== FILE: sync.dfy ===
/** The two devices seen together: what a peer holds after applying the
    frames one device sends. These lemmas connect the encoders of one side
    with `onCanReceive` on the other. */
module Sync {
  import opened Bounded
  import opened Geometry
  import opened Codec
  import opened Game
  import opened Timing
  import opened Ingest
  import opened PaddleControl
  import opened Physics

  /** A paddle broadcast reproduces the sender's own paddle exactly as the
      receiver's opponent paddle: the vertical axis is shared, so nothing is
      mirrored and the centre-byte quantisation loses nothing. */
  lemma PaddleSync(me: State, now: u32, peer: State)
    requires Valid(me)
    requires Due(now, me.timers.paddleSend, PADDLE_SEND_INTERVAL_MS)
    ensures ApplyAll(peer, PaddleSend(me, now).frames).opponentPaddleY == me.ownPaddleY
  {
    var f := EncodePaddle(me.ownPaddleY);
    ApplyAllShort(peer, f, f);
  }

  /** After a master tick the follower's ball is the master's ball mirrored
      in X (so mirroring it back gives the master's X), at the same Y, shown,
      and inside the follower's playfield; when the tick scored, the
      follower's counters are the master's counters byte for byte, without a
      left/right swap. */
  lemma BallSync(master: State, now: u32, peer: State)
    requires Valid(master) && master.isMaster
    requires Due(now, master.timers.ballUpdate, BALL_UPDATE_INTERVAL_MS)
    ensures var r := PhysicsStep(master, now);
            var p := ApplyAll(peer, r.frames);
            && p.ball.x == MirrorX(r.state.ball.x)
            && MirrorX(p.ball.x) == r.state.ball.x
            && p.ball.y == r.state.ball.y
            && p.ball.visible
            && BALL_X_MIN <= p.ball.x <= BALL_X_MAX
            && BALL_Y_MIN <= p.ball.y <= BALL_Y_MAX
            && p.ball.vx == peer.ball.vx && p.ball.vy == peer.ball.vy
            && (|r.frames| == 2 ==>
                  p.scoreLeft == r.state.scoreLeft && p.scoreRight == r.state.scoreRight)
            && (|r.frames| == 1 ==>
                  p.scoreLeft == peer.scoreLeft && p.scoreRight == peer.scoreRight)
  {
    var t := Tick(master.ball, master.ownPaddleY, master.opponentPaddleY, master.scoreLeft, master.scoreRight);
    TickKeepsBallInField(master.ball, master.ownPaddleY, master.opponentPaddleY, master.scoreLeft, master.scoreRight);
    var ballFrame := EncodeBall(t.ball.x, t.ball.y);
    var scoreFrame := EncodeScore(t.scoreLeft, t.scoreRight);
    ApplyAllShort(peer, ballFrame, ballFrame);
    ApplyAllShort(peer, scoreFrame, ballFrame);
  }
}

=== FILE: timing.dfy ===
/** Interval gating on the free-running 32-bit millisecond counter.

    An activity is due when `millis() - last >= interval`, computed in
    `uint32_t`; when it runs it stores the current time as its new `last`.
 */
module Timing {
  import opened Bounded

  const PADDLE_SEND_INTERVAL_MS: u32 := 40
  const BALL_UPDATE_INTERVAL_MS: u32 := 10
  const PADDLE_MOVE_INTERVAL_MS: u32 := 15
  const DRAW_INTERVAL_MS: u32 := 33

  /** `now - last` in `uint32_t`: a 32-bit value that, added to `last` with
      wrap-around, gives `now` (and by `ElapsedUnique` the only one). */
  function Elapsed(now: u32, last: u32): (d: u32)
    ensures (last + d) % WORD_MOD == now
  {
    (now - last) % WORD_MOD
  }

  /** No other 32-bit distance leads from `last` to `now`. */
  lemma ElapsedUnique(now: u32, last: u32, e: u32)
    requires (last + e) % WORD_MOD == now
    ensures e == Elapsed(now, last)
  {
  }

  predicate Due(now: u32, last: u32, interval: u32) {
    Elapsed(now, last) >= interval
  }

  /** Wrap-around safety: if `d` milliseconds (fewer than 2^32) of real time
      separate two clock readings, the gate opens exactly when `d` reaches the
      interval, whether or not the counter wrapped in between. */
  lemma DueIffElapsed(tLast: nat, d: nat, interval: u32)
    requires d < WORD_MOD
    ensures Due((tLast + d) % WORD_MOD, tLast % WORD_MOD, interval) <==> d >= interval
  {
    var last := tLast % WORD_MOD;
    var now := (tLast + d) % WORD_MOD;
    assert (last + d) % WORD_MOD == now;
    ElapsedUnique(now, last, d);
  }
}
